=== FILE: README.md ===
# Product catalog request handler — Dafny model

This project models the logic of a small product catalog: the PHP request
handler `backend/api/product.php`, which serves list / get / create / update /
delete over a single `products` table, and the pure helper logic of the React
list page `frontend/src/components/ProductList.js`.

The table is a `map<int, Product>` keyed by the auto-assigned id. Every
operation is a pure function from the table and the request to the response
(status code and JSON payload) and the table afterwards.

- `PhpValues` — PHP's string truthiness (`""` and `"0"` are false), `empty()` and `??`.
- `Products` — the row, request-body, listing and response data types and the response messages.
- `Handlers` — create (with the `name`/`price` truthiness check), get, update by field merge, delete.
- `Query` — the list query: parameter defaults, the WHERE clause, ORDER BY, LIMIT/OFFSET, and `ceil(total / limit)`.
- `QueryProperties`, `QueryScenarios` — the pages partition the matching rows; ordering; concrete listings.
- `JsStrings` — JavaScript strings as UTF-16 code units, which `length` and `substring` count.
- `Router` — the dispatch on HTTP method and `id` parameter.
- `ProductListView` — request parameters, filter reset, Previous/Next, page buttons, description and image fallbacks, and how they meet the handler.

The code does not guard three things a reader might expect it to guard. The model follows the code:

- Paging. A `page` below 1 or a `limit` below 1 is not clamped. A negative OFFSET or LIMIT is a SQL syntax error. A `limit` of 0 divides by zero in the page count, which PHP 8 raises as a `DivisionByZeroError`. An offset `($page - 1) * $limit` above `PHP_INT_MAX` becomes a float, printed in exponent notation, which is also a SQL syntax error. `Query.List` answers `None` for all of these, and `Router.ListResponse` turns that into a 500 `ServerError`.
- Prices. They are not required to be non-negative. Create accepts any truthy price, including negative ones, and update writes whatever is supplied.
- Search. It is plain substring containment. Case-insensitivity depends on a database collation that is not part of this model.

## Model

| member | source | states |
|---|---|---|
| PhpValues.TruthyQuirks | backend/api/product.php:174-175 | only "" and "0" are false strings; "0.0", "00", " " and "false" are true |
| PhpValues.CoalesceKeepsFalsyValues | backend/api/product.php:140-143 | `??` keeps a supplied "" or "0" and falls back only for null |
| PhpValues.Truthy | backend/api/product.php:174-175 | PHP's string-to-boolean conversion: false exactly for "" and "0" |
| PhpValues.Empty | backend/api/product.php:50 | `empty()` on a string: true exactly for the false strings |
| PhpValues.Coalesce | backend/api/product.php:140-143 | `??`: the value when it is not null, else the fallback |
| Handlers.NameGiven | backend/api/product.php:14 | `!$data->name` is false: the name is present and PHP-truthy |
| Handlers.PriceGiven | backend/api/product.php:14 | `!$data->price` is false: a JSON number other than 0, or a truthy string, so "0.0" passes |
| Handlers.Create | backend/api/product.php:11-32 | 400 "Name and price are required" with the table unchanged iff name or price is PHP-falsy; otherwise 201, exactly one new row under the fresh id holding the supplied name, description, price amount and image (null when absent), all other rows unchanged |
| Handlers.Get | backend/api/product.php:102-114 | 200 with the stored row iff the id exists, else 404 "Product not found" |
| Handlers.Update | backend/api/product.php:117-148 | 404 and no change iff the id is absent; otherwise 200, same key set, the row replaced by the field merge, every other row unchanged |
| Handlers.Delete | backend/api/product.php:151-162 | the id is gone afterwards and nothing else changes; 200 "Product deleted successfully" iff a row existed, else 404 |
| Handlers.Merge | backend/api/product.php:139-145 | the values the UPDATE writes: each column `??` the stored one |
| Handlers.MergeFieldwise | backend/api/product.php:139-145 | each column is the supplied value when non-null (an empty string counts as supplied), else the stored value |
| Handlers.MergeIdempotent | backend/api/product.php:139-145 | applying the same partial update twice equals applying it once |
| Handlers.EmptyUpdateIsNoOp | backend/api/product.php:117-147 | an update with an empty or all-null body leaves the whole table unchanged |
| Handlers.GetAfterUpdate | backend/api/product.php:131-147 | a get after an update returns the merged row |
| Handlers.GetAfterDelete | backend/api/product.php:151-162 | a get after a delete of that id answers 404 "Product not found" |
| Handlers.GetOtherAfterDelete | backend/api/product.php:152-154 | a delete leaves every other id's get answer unchanged |
| Handlers.DeleteTwice | backend/api/product.php:156-161 | a second delete of the same id answers 404 |
| Handlers.GetAfterCreate | backend/api/product.php:20-28 | a get of the new id returns the supplied values, with null for absent description or image |
| Handlers.CreatedNameNonEmpty | backend/api/product.php:14-18 | every created row has a non-empty name |
| Handlers.CreatePriceQuirks | backend/api/product.php:14-18 | price 0 and "0" are refused, "0.0" is accepted with amount 0, and a negative price is stored |
| Handlers.CreateNameQuirk | backend/api/product.php:14-18 | the name "0" is refused with 400 and inserts nothing |
| Query.Resolve | backend/api/product.php:36-43 | the defaults for unset parameters: page 1, limit 10, search "", min price 0, no max price, sort "" |
| Query.SortKeyOf | backend/api/product.php:55-62 | "price_asc" and "price_desc" select their orders; any other value selects id DESC |
| Query.Contains | backend/api/product.php:50-52 | `LIKE '%search%'` read as substring containment |
| Query.ContainsInfix | backend/api/product.php:50-52 | every text with the search text inside it matches the LIKE |
| Query.Matches | backend/api/product.php:45-53 | the WHERE clause shared with the count query at lines 77-83: min <= price <= max, and a non-empty search occurs in the name or a non-null description |
| Query.PrecedesIsStrictTotal | backend/api/product.php:55-62 | each ORDER BY, with ties broken by id, is an irreflexive, total and transitive order |
| Query.FirstExists | backend/api/product.php:55-62 | every non-empty set of rows has a first row in each ordering |
| Query.Sort | backend/api/product.php:55-62 | the sorted ids are exactly the given ids, as many of them, in strictly increasing order |
| Query.RowsInOrderDistinct | backend/api/product.php:55-62 | rows in a strict order never repeat an id |
| Query.Ranked | backend/api/product.php:45-62 | every matching row exactly as stored, each matching id present, all in ORDER BY order |
| Query.Offset | backend/api/product.php:38 | the offset is non-negative and below page * limit |
| Query.Window | backend/api/product.php:64-65 | LIMIT/OFFSET: at most `limit` rows, the rows starting at the offset, empty past the end |
| Query.PageCount | backend/api/product.php:97 | the least page count p with p * limit >= total (so 0 for no rows) |
| Query.ListPage | backend/api/product.php:35-98 | `total` counts the matching rows; `pages` is the page count; `data` is the ranked matching rows from the offset on, min(limit, rows left) of them and none past the end, each a matching stored row in ORDER BY order; page and limit echoed |
| Query.PagingAccepted | backend/api/product.php:36-38 | the paging parameters for which the LIMIT/OFFSET clause at line 65 is well formed and the page count at line 97 has a non-zero divisor: page >= 1, limit >= 1 and (page - 1) * limit <= PHP_INT_MAX |
| Query.List | backend/api/product.php:35-98 | a listing exists iff, after the defaults (page 1, limit 10), page >= 1, limit >= 1 and the offset (page - 1) * limit is at most PHP_INT_MAX; it is then the page the data and count queries produce |
| QueryProperties.ConcatIsPrefix | backend/api/product.php:38-65 | pages 1..n concatenated are the first n * limit ranked rows |
| QueryProperties.AllPagesCoverAll | backend/api/product.php:38-97 | pages 1..ceil(total/limit) concatenated are all ranked rows |
| QueryProperties.PagesAreWindows | backend/api/product.php:36-65 | the data of the requests for pages 1..n is the concatenation of their windows |
| QueryProperties.PagesCoverRanked | backend/api/product.php:36-97 | for a table of at most PHP_INT_MAX rows every page 1..ceil(total/limit) is accepted, and their data, concatenated, is the full ranked list of matching rows |
| QueryProperties.PagesPartitionMatches | backend/api/product.php:45-97 | for a table of at most PHP_INT_MAX rows, asking for pages 1..pages returns total rows, each a matching stored row, every matching row at least once and no id twice |
| QueryProperties.ListOrder | backend/api/product.php:55-62 | price_asc gives non-decreasing prices, price_desc non-increasing, any other or absent sort strictly descending ids |
| QueryProperties.TotalIgnoresPaging | backend/api/product.php:77-87 | total is the same for every accepted page and limit |
| QueryProperties.NonEmptyPageIffInRange | backend/api/product.php:36-97 | for accepted paging parameters, a page returns rows iff page <= pages |
| QueryProperties.OffsetBelowTotalIff | backend/api/product.php:38-97 | rows remain after offset (page - 1) * limit iff page <= ceil(total / limit) |
| QueryScenarios.DefaultListingNewestTen | backend/api/product.php:36-62 | with no parameters: the ten newest products of non-negative price, newest first, and total counts all of them |
| QueryScenarios.NegativePriceNeverListedByDefault | backend/api/product.php:41-46 | a negative-price row is never listed or counted under the default minimum price |
| QueryScenarios.ScenarioMatches | backend/api/product.php:45-47 | with prices 3, 6, 8, 9, 12 and the range 5..10, exactly the rows priced 6, 8, 9 match |
| QueryScenarios.RankedOfThree | backend/api/product.php:45-62 | when exactly three rows match, the ranking starts with the first two of them in ORDER BY order |
| QueryScenarios.ScenarioRanked | backend/api/product.php:55-57 | those rows ranked cheapest first begin with 6 then 8 |
| QueryScenarios.PriceRangeScenario | backend/api/product.php:35-98 | range 5..10, price_asc, page 1, limit 2 on those prices returns [6, 8], total 3, pages 2 |
| QueryScenarios.OverflowingOffsetFails | backend/api/product.php:38 | page 3000000000 with limit 4000000000 fails; an offset of exactly PHP_INT_MAX is accepted |
| Router.HasId | backend/api/product.php:174-175 | `if ($id)` for PUT (and DELETE at lines 182-183): the id is set and PHP-truthy |
| Router.ListResponse | backend/api/product.php:92-98 | 200 with the listing when the list query answers, else 500 |
| Router.Route | backend/api/product.php:165-192 | GET with id is get, GET without id is list, POST is create, PUT/DELETE with truthy id update/delete, PUT/DELETE without one 400 "Product ID is required", other methods 405; GET never changes the table |
| Router.RouteStatuses | backend/api/product.php:165-192 | the status is one of 200/201/400/404/405/500; with every write accepted by the database: 201 iff a valid POST, 405 iff an unknown method, 500 iff a failing list, 404 only for a set id whose key is absent |
| Router.OnlyWritesChangeTheTable | backend/api/product.php:165-192 | the table changes only on a successful POST, PUT or DELETE |
| Router.OverflowingListIsServerError | backend/api/product.php:38-65 | a list request whose offset exceeds PHP_INT_MAX is answered 500 and changes nothing |
| Router.ZeroIdQuirk | backend/api/product.php:165-184 | id "0" is "required" for PUT and DELETE, but GET still looks it up |
| Router.MethodIsCaseSensitive | backend/api/product.php:165-192 | a lower-case "get" is answered 405 |
| Router.RoutedGetAfterDelete | backend/api/product.php:165-188 | a routed DELETE followed by a routed GET of that id answers 404 |
| ProductListView.OrElse | frontend/src/components/ProductList.js:21-22 | JavaScript's string-or-fallback yields the string when it is non-empty and the fallback otherwise, so it is empty only if both are |
| ProductListView.Fetch | frontend/src/components/ProductList.js:18-27 | limit is always 8; empty min price becomes "0", empty max price "100000", other fields pass through; the price parameters are never empty |
| ProductListView.InitialRequestsFirstPage | frontend/src/components/ProductList.js:8-27 | the initial state sends search "", min price "0", max price "100000", sort "", page 1 and limit 8, and the handler answers it |
| ProductListView.Submit | frontend/src/components/ProductList.js:41-45 | submitting the filter form sets page 1 and changes nothing else |
| ProductListView.Receive | frontend/src/components/ProductList.js:28-29 | a response sets the page count and nothing else |
| ProductListView.PreviousPage | frontend/src/components/ProductList.js:168 | the result is at least 1, never exceeds a page >= 1, and is page - 1 when page > 1 |
| ProductListView.NextPage | frontend/src/components/ProductList.js:176 | from 1 <= page <= totalPages the result stays in 1..totalPages; page + 1 below the last page, totalPages otherwise |
| ProductListView.PreviousDisabled | frontend/src/components/ProductList.js:169 | Previous is disabled iff the page is 1 |
| ProductListView.NextDisabled | frontend/src/components/ProductList.js:177 | Next is disabled iff the page is the page count |
| ProductListView.DisabledIffNoMove | frontend/src/components/ProductList.js:166-180 | within range, Previous is disabled iff it would not move, and likewise Next |
| ProductListView.PreviousNextInverse | frontend/src/components/ProductList.js:166-180 | Previous undoes Next and Next undoes Previous wherever the first press moved |
| ProductListView.NextWithoutPages | frontend/src/components/ProductList.js:176 | with zero pages Next moves to page 0 |
| ProductListView.RenderPagination | frontend/src/components/ProductList.js:58-72 | exactly totalPages buttons numbered 1..totalPages in order; a button is active iff its number is the page; some button is active iff the page is in range |
| ProductListView.DescriptionText | frontend/src/components/ProductList.js:142-148 | null or empty shows "No description available"; up to 100 UTF-16 code units unchanged; longer shows its first 100 code units then "..."; never longer than 103 code units |
| ProductListView.DescriptionIsPrefix | frontend/src/components/ProductList.js:143-147 | the shown code units are a prefix of the stored text's, optionally followed by "..." |
| ProductListView.BmpDescriptionCutsCharacters | frontend/src/components/ProductList.js:144-145 | for text without astral characters the cut falls after 100 characters |
| ProductListView.EmojiDescriptionIsCut | frontend/src/components/ProductList.js:144-145 | 51 emoji are 102 code units, so the card shows 50 of them and "..." |
| JsStrings.Utf16 | frontend/src/components/ProductList.js:144-145 | the code units JavaScript's `length` and `substring` count: at least one and at most two per character |
| JsStrings.DecodeUtf16 | frontend/src/components/ProductList.js:144-145 | decoding the code units gives back the string, so the encoding loses nothing |
| JsStrings.Utf16Concat | frontend/src/components/ProductList.js:144-145 | the code units of a concatenation are the concatenated code units |
| JsStrings.BmpUnits | frontend/src/components/ProductList.js:144-145 | without astral characters `length` counts characters, unit i being character i |
| JsStrings.AstralDoubles | frontend/src/components/ProductList.js:144-145 | a string of astral characters is twice as long in code units |
| JsStrings.BmpIsUtf16 | frontend/src/components/ProductList.js:146-147 | the fixed texts "..." and "No description available" are one code unit per character |
| ProductListView.ImageSource | frontend/src/components/ProductList.js:135 | the stored URL unless null or empty, else the placeholder; never empty |
| ProductListView.AsListQuery | frontend/src/components/ProductList.js:18-27 | the sent parameters as the handler reads them, every one set |
| ProductListView.FetchIsAnswered | frontend/src/components/ProductList.js:18-27 | whatever prices are entered, a request is answered iff its page is >= 1 and (page - 1) * 8 fits a PHP integer, and then with at most 8 rows |
| ProductListView.SubmitFetchesFirstPage | frontend/src/components/ProductList.js:41-45 | after a submit the request asks for page 1 and is answered |
| ProductListView.ShownPaginationStaysInRange | frontend/src/components/ProductList.js:164-182 | when an accepted request's response shows products, the page and both Previous and Next results lie in 1..pages |
| ProductListView.EmptyMaxPriceCapsAt100000 | frontend/src/components/ProductList.js:20-26 | an empty max-price field sends 100000, so products priced above it are never listed |
| ProductListView.SearchForZeroIsIgnored | backend/api/product.php:50-53 | the search text "0" filters nothing; only the price range applies |

## Left out

- Database connection, credentials, CORS headers and the OPTIONS early exit in `backend/config/database.php`. These are I/O and configuration. `Router.Route` answers OPTIONS with 405, although the real server exits before routing.
- JSON and HTTP transport: reading the body, `json_decode` failures, `echo`, and the JSON types of the encoded numbers (whether `total` is encoded as a number or a string depends on the PHP version and PDO settings). A missing or undecodable body reads as `EmptyBody`.
- `intval` and `floatval` parsing of query parameters, and the database's reading of a text price or id as a number. Parameters arrive already parsed. `PriceInput.Textual` and `IdParam` carry both the text and the number.
- Handlers.Create: names are modelled as strings and prices as JSON numbers or strings. A JSON boolean, array or object in either field is not modelled.
- Floating-point prices and `PHP_FLOAT_MAX`. Prices are exact `real` values, and the default maximum is "no upper bound".
- SQL LIKE wildcards (`%` and `_` inside the search text), `\`, LIKE's escape character (so `a\b` searches for `ab`, and a trailing `\` escapes the closing `%`), and collation-dependent case folding. Search is plain substring containment, and a null description never matches.
- Query.Sort: ties among equal prices are fixed by ascending id, where SQL leaves their order open.
- Auto-increment id assignment. Create takes any fresh id not in the table.
- Concurrency: the read-then-write race between simultaneous updates. Each request is applied atomically.
- React state scheduling and effects. This includes the stale `page` that `handleSearch`'s immediate fetch uses before the reset takes effect, the loading flag, and the `window.confirm` dialog before a delete.
- `frontend/src/components/ProductForm.js` and `Navbar.js`: form rendering, links and network calls.
- The count query repeats the data query's WHERE clause. Both are modelled by the one predicate `Query.Matches`.
- Router.RouteStatuses: the model assumes the database accepts every INSERT, UPDATE and DELETE the handler sends, so "201 iff a valid POST" and "500 iff a failing list" hold only under that assumption. A price the column cannot hold (a truthy `"abc"` on create, or an `""` that `??` keeps on update) would make a strict-mode MySQL reject the statement, and PDO's exception would end the request with 500. The table schema is not part of the source, and `Handlers.Create` and `Handlers.Update` carry each text price's numeric reading in `PriceInput.Textual`.
- Router.ListResponse: the 500 for a failing list assumes PHP 8 with `display_errors` off. The connection puts PDO in exception mode (`backend/config/database.php`, line 18), so a rejected query throws. Under PHP 7 a `limit` of 0 only warns and yields INF or NAN. With errors displayed, PHP keeps the status at 200.

=== FILE: handlers.dfy ===
/** The four single-row operations of the request handler: create, get,
    update by field merge, and delete. Each takes the table and returns the
    response together with the table afterwards. */
module Handlers {
  import opened Options
  import opened PhpValues
  import opened Products

  /** `!$data->name` is false: the name is present and not "" or "0". */
  predicate NameGiven(name: Option<string>) {
    name.Some? && Truthy(name.value)
  }

  /** `!$data->price` is false. A JSON number is falsy only when zero; a
      JSON string is falsy only when it is "" or "0", so "0.0" passes. */
  predicate PriceGiven(price: Option<PriceInput>) {
    match price
    case None => false
    case Some(Numeric(amount)) => amount != 0.0
    case Some(Textual(text, _)) => Truthy(text)
  }

  /** The create request. The database picks `newId`, a key not yet in use. */
  function Create(store: Store, body: Body, newId: int): (r: Outcome)
    requires newId !in store
    ensures r.response.status == 400 || r.response.status == 201
    ensures r.response.status == 400 <==> !NameGiven(body.name) || !PriceGiven(body.price)
    ensures r.response.status == 400 ==>
      r.response.payload == Message(RequiredMessage) && r.store == store
    ensures r.response.status == 201 ==>
      && r.response.payload == Message(CreatedMessage)
      && r.store.Keys == store.Keys + {newId}
      && |r.store| == |store| + 1
      && (forall k :: k in store ==> r.store[k] == store[k])
      && r.store[newId].name == body.name.value
      && r.store[newId].description == body.description
      && r.store[newId].price == body.price.value.amount
      && r.store[newId].imageUrl == body.imageUrl
  {
    if !NameGiven(body.name) || !PriceGiven(body.price) then
      Outcome(Response(400, Message(RequiredMessage)), store)
    else
      var row := Product(body.name.value, body.description, body.price.value.amount, body.imageUrl);
      Outcome(Response(201, Message(CreatedMessage)), store[newId := row])
  }

  /** The get request: the row with that id, or 404. */
  function Get(store: Store, id: int): (r: Response)
    ensures r.status == 200 || r.status == 404
    ensures r.status == 200 <==> id in store
    ensures id in store ==> r.payload == Record(Row(id, store[id]))
    ensures id !in store ==> r == NotFound
  {
    if id in store then Response(200, Record(Row(id, store[id]))) else NotFound
  }

  /** The values the UPDATE statement writes: each column is the supplied
      value when the body carries a non-null one, else the stored value. */
  function Merge(stored: Product, body: Body): Product {
    Product(
      Coalesce(body.name, stored.name),
      if body.description.Some? then body.description else stored.description,
      Coalesce(body.price, Numeric(stored.price)).amount,
      if body.imageUrl.Some? then body.imageUrl else stored.imageUrl)
  }

  /** The update request: 404 and no change for an unknown id, otherwise the
      merged row replaces the stored one and nothing else changes. */
  function Update(store: Store, id: int, body: Body): (r: Outcome)
    ensures r.response.status == 200 || r.response.status == 404
    ensures r.response.status == 404 <==> id !in store
    ensures id !in store ==> r.response == NotFound && r.store == store
    ensures id in store ==>
      && r.response.payload == Message(UpdatedMessage)
      && r.store.Keys == store.Keys
      && r.store[id] == Merge(store[id], body)
      && (forall k :: k in store && k != id ==> r.store[k] == store[k])
  {
    if id !in store then Outcome(NotFound, store)
    else Outcome(Response(200, Message(UpdatedMessage)), store[id := Merge(store[id], body)])
  }

  /** The delete request: the row is gone afterwards, and the answer is 200
      exactly when a row was removed. */
  function Delete(store: Store, id: int): (r: Outcome)
    ensures r.response.status == 200 || r.response.status == 404
    ensures r.response.status == 200 <==> id in store
    ensures r.response.status == 200 ==> r.response.payload == Message(DeletedMessage)
    ensures r.response.status == 404 ==> r.response == NotFound
    ensures r.store.Keys == store.Keys - {id}
    ensures forall k :: k in r.store ==> r.store[k] == store[k]
  {
    if id in store then Outcome(Response(200, Message(DeletedMessage)), store - {id})
    else Outcome(NotFound, store)
  }

  // ----- Properties relating the operations -----

  /** Each column of a merge is the supplied value when there is one (an
      empty string counts as supplied) and the stored value otherwise. */
  lemma MergeFieldwise(stored: Product, body: Body)
    ensures body.name.Some? ==> Merge(stored, body).name == body.name.value
    ensures body.name.None? ==> Merge(stored, body).name == stored.name
    ensures body.description.Some? ==> Merge(stored, body).description == body.description
    ensures body.description.None? ==> Merge(stored, body).description == stored.description
    ensures body.price.Some? ==> Merge(stored, body).price == body.price.value.amount
    ensures body.price.None? ==> Merge(stored, body).price == stored.price
    ensures body.imageUrl.Some? ==> Merge(stored, body).imageUrl == body.imageUrl
    ensures body.imageUrl.None? ==> Merge(stored, body).imageUrl == stored.imageUrl
  {
  }

  /** Applying the same partial update twice is the same as applying it once. */
  lemma MergeIdempotent(stored: Product, body: Body)
    ensures Merge(Merge(stored, body), body) == Merge(stored, body)
  {
  }

  /** An update whose body supplies nothing leaves the whole table as it was,
      whether or not the id exists. */
  lemma EmptyUpdateIsNoOp(store: Store, id: int)
    ensures Update(store, id, EmptyBody).store == store
  {
  }

  /** A get after a successful update returns the merged row. */
  lemma GetAfterUpdate(store: Store, id: int, body: Body)
    requires id in store
    ensures Get(Update(store, id, body).store, id) == Response(200, Record(Row(id, Merge(store[id], body))))
  {
  }

  /** A get after a delete of the same id answers 404. */
  lemma GetAfterDelete(store: Store, id: int)
    ensures Get(Delete(store, id).store, id) == NotFound
  {
  }

  /** A delete leaves every other row readable exactly as before. */
  lemma GetOtherAfterDelete(store: Store, id: int, other: int)
    requires other != id
    ensures Get(Delete(store, id).store, other) == Get(store, other)
  {
  }

  /** Deleting twice: the second delete finds nothing and answers 404. */
  lemma DeleteTwice(store: Store, id: int)
    ensures Delete(Delete(store, id).store, id).response == NotFound
  {
  }

  /** A get of the id a successful create used returns the supplied values,
      with null for an absent description or image. */
  lemma GetAfterCreate(store: Store, body: Body, newId: int)
    requires newId !in store
    requires NameGiven(body.name) && PriceGiven(body.price)
    ensures Get(Create(store, body, newId).store, newId) ==
      Response(200, Record(Row(newId, Product(body.name.value, body.description, body.price.value.amount, body.imageUrl))))
  {
  }

  /** Every row a create inserts has a non-empty name. */
  lemma CreatedNameNonEmpty(store: Store, body: Body, newId: int)
    requires newId !in store
    requires Create(store, body, newId).response.status == 201
    ensures |Create(store, body, newId).store[newId].name| > 0
  {
  }

  /** The price checks follow PHP truthiness, not the amount: a numeric zero
      and the string "0" are refused, the string "0.0" is accepted with a
      zero amount, and a negative price is accepted. */
  lemma CreatePriceQuirks(store: Store, newId: int)
    requires newId !in store
    ensures Create(store, Body(Some("Widget"), None, Some(Numeric(0.0)), None), newId).response.status == 400
    ensures Create(store, Body(Some("Widget"), None, Some(Textual("0", 0.0)), None), newId).response.status == 400
    ensures Create(store, Body(Some("Widget"), None, Some(Textual("0.0", 0.0)), None), newId).response.status == 201
    ensures Create(store, Body(Some("Widget"), None, Some(Numeric(-5.0)), None), newId).store[newId].price == -5.0
  {
  }

  /** The name "0" is refused like an empty name. */
  lemma CreateNameQuirk(store: Store, newId: int)
    requires newId !in store
    ensures Create(store, Body(Some("0"), None, Some(Numeric(1.0)), None), newId).response ==
      Response(400, Message(RequiredMessage))
    ensures Create(store, Body(Some("0"), None, Some(Numeric(1.0)), None), newId).store == store
  {
  }
}

=== FILE: js_strings.dfy ===
/** JavaScript strings as the language holds them: sequences of UTF-16 code
    units. `length` and `substring` count code units, so a character outside
    the Basic Multilingual Plane (an emoji, say) counts twice. */
module JsStrings {
  import opened Options

  /** One UTF-16 code unit. */
  type CodeUnit = x: int | 0 <= x < 0x1_0000

  /** A character that UTF-16 writes as a surrogate pair. */
  predicate Astral(c: char) {
    c as int >= 0x1_0000
  }

  /** The UTF-16 encoding of one character: itself below 0x10000, else a
      high surrogate (0xD800..0xDBFF) followed by a low one (0xDC00..0xDFFF). */
  function Units(c: char): (r: seq<CodeUnit>)
    ensures |r| == (if Astral(c) then 2 else 1)
  {
    var v := c as int;
    if v < 0x1_0000 then [v]
    else [0xD800 + (v - 0x1_0000) / 0x400, 0xDC00 + (v - 0x1_0000) % 0x400]
  }

  /** The code units JavaScript holds for a string. */
  function Utf16(s: string): (r: seq<CodeUnit>)
    ensures |s| <= |r| <= 2 * |s|
  {
    if s == [] then [] else Units(s[0]) + Utf16(s[1..])
  }

  /** The characters of a sequence of code units, or `None` when a surrogate
      is unpaired. */
  function Decode(u: seq<CodeUnit>): Option<string>
    decreases |u|
  {
    if u == [] then Some([])
    else if 0xD800 <= u[0] < 0xDC00 && |u| >= 2 && 0xDC00 <= u[1] < 0xE000 then
      var c := 0x1_0000 + (u[0] as int - 0xD800) * 0x400 + (u[1] as int - 0xDC00);
      match Decode(u[2..])
      case None => None
      case Some(rest) => Some([c as char] + rest)
    else if 0xD800 <= u[0] < 0xE000 then None
    else
      match Decode(u[1..])
      case None => None
      case Some(rest) => Some([u[0] as char] + rest)
  }

  /** Decoding undoes the encoding: no two strings share their code units. */
  lemma {:induction false} DecodeUtf16(s: string)
    ensures Decode(Utf16(s)) == Some(s)
  {
    if s != [] {
      DecodeUtf16(s[1..]);
      var u := Utf16(s);
      assert u == Units(s[0]) + Utf16(s[1..]);
      if Astral(s[0]) {
        assert u[2..] == Utf16(s[1..]);
      } else {
        assert u[1..] == Utf16(s[1..]);
      }
      assert [s[0]] + s[1..] == s;
    }
  }

  /** Encoding a concatenation concatenates the encodings. */
  lemma {:induction false} Utf16Concat(a: string, b: string)
    ensures Utf16(a + b) == Utf16(a) + Utf16(b)
  {
    if a == [] {
      assert a + b == b;
    } else {
      assert (a + b)[0] == a[0];
      assert (a + b)[1..] == a[1..] + b;
      Utf16Concat(a[1..], b);
    }
  }

  /** Below 0x10000 every character is one code unit, so `length` counts
      characters. */
  lemma {:induction false} BmpUnits(s: string)
    requires forall i :: 0 <= i < |s| ==> !Astral(s[i])
    ensures |Utf16(s)| == |s|
    ensures forall i :: 0 <= i < |s| ==> Utf16(s)[i] == s[i] as int
  {
    if s != [] {
      BmpUnits(s[1..]);
      assert forall i :: 1 <= i < |s| ==> s[1..][i - 1] == s[i];
    }
  }

  /** A string of astral characters has twice as many code units as
      characters. */
  lemma {:induction false} AstralDoubles(s: string)
    requires forall i :: 0 <= i < |s| ==> Astral(s[i])
    ensures |Utf16(s)| == 2 * |s|
  {
    if s != [] {
      AstralDoubles(s[1..]);
    }
  }

  /** A string without astral characters: one code unit per character. */
  type BmpString = s: string | forall i :: 0 <= i < |s| ==> !Astral(s[i])

  /** The code units of such a string, character by character. */
  function Bmp(s: BmpString): (r: seq<CodeUnit>)
    ensures |r| == |s|
  {
    seq(|s|, i requires 0 <= i < |s| => s[i] as int)
  }

  /** For such a string the character-by-character units are its UTF-16
      encoding. */
  lemma BmpIsUtf16(s: BmpString)
    ensures Bmp(s) == Utf16(s)
  {
    BmpUnits(s);
  }
}

=== FILE: options.dfy ===
/** An optional value, shared by the PHP handler's model (where `None` is
    `null` or an absent property) and the JavaScript side. */
module Options {
  /** `None` stands for PHP's `null`, which is also what reading an absent
      property of a decoded JSON object yields. */
  datatype Option<+T> = None | Some(value: T)
}

=== FILE: php_values.dfy ===
/** The few PHP value semantics the request handler relies on: the
    conversion of a request string to a boolean (`if ($x)`, `!$x`),
    `empty()` on a string, and the `??` operator. */
module PhpValues {
  import opened Options

  /** `PHP_INT_MAX` on a 64-bit build. An integer product above it is
      silently converted to a float. */
  const PhpIntMax := 0x7FFF_FFFF_FFFF_FFFF

  /** PHP's conversion of a string to boolean: exactly "" and "0" are false,
      every other string (" ", "00", "0.0", "false") is true. */
  predicate Truthy(s: string) {
    s != "" && s != "0"
  }

  /** PHP's `empty()` applied to a string. */
  predicate Empty(s: string) {
    !Truthy(s)
  }

  /** `$x ?? $fallback`: the fallback exactly when the value is null or absent. */
  function Coalesce<T>(x: Option<T>, fallback: T): T {
    match x
    case Some(v) => v
    case None => fallback
  }

  /** The strings PHP treats as false are exactly the two listed; look-alikes
      of zero are true. */
  lemma TruthyQuirks()
    ensures !Truthy("") && !Truthy("0")
    ensures Truthy("0.0") && Truthy("00") && Truthy(" ") && Truthy("false")
  {
  }

  /** `??` keeps a supplied value even when it is falsy, unlike `||`. */
  lemma CoalesceKeepsFalsyValues(fallback: string)
    ensures Coalesce(Some(""), fallback) == ""
    ensures Coalesce(Some("0"), fallback) == "0"
    ensures Coalesce(None, fallback) == fallback
  {
  }
}

=== FILE: product_list.dfy ===
/** The pure logic of the product list page: the request parameters it
    sends, the filter-form reset, the Previous/Next handlers, the page
    buttons, and the description and image fallbacks. */
module ProductListView {
  import opened Options
  import opened PhpValues
  import opened Products
  import opened Query
  import opened JsStrings
  import QueryProperties

  const PageSize := 8
  const DefaultMinPrice := "0"
  const DefaultMaxPrice := "100000"
  const DescriptionLimit := 100
  const Ellipsis: BmpString := "..."
  const NoDescription: BmpString := "No description available"
  const PlaceholderImage := "https://via.placeholder.com/300"

  /** The component's state: the form fields as typed, the current page, and
      the page count of the last response. */
  datatype ViewState = ViewState(
    search: string,
    minPrice: string,
    maxPrice: string,
    sort: string,
    page: int,
    totalPages: int)

  const Initial := ViewState("", "", "", "", 1, 1)

  /** The query parameters of the list request. */
  datatype FetchParams = FetchParams(
    search: string,
    minPrice: string,
    maxPrice: string,
    sort: string,
    page: int,
    limit: int)

  /** JavaScript's `s || fallback` on a string: only "" is falsy. */
  function OrElse(s: string, fallback: string): (r: string)
    ensures s != "" ==> r == s
    ensures s == "" ==> r == fallback
    ensures r == "" <==> s == "" && fallback == ""
  {
    if s != "" then s else fallback
  }

  /** The parameters `fetchProducts` sends. */
  function Fetch(v: ViewState): (p: FetchParams)
    ensures p.limit == PageSize
    ensures p.search == v.search && p.sort == v.sort && p.page == v.page
    ensures p.minPrice != "" && p.maxPrice != ""
    ensures v.minPrice != "" ==> p.minPrice == v.minPrice
    ensures v.maxPrice != "" ==> p.maxPrice == v.maxPrice
    ensures v.minPrice == "" ==> p.minPrice == DefaultMinPrice
    ensures v.maxPrice == "" ==> p.maxPrice == DefaultMaxPrice
  {
    FetchParams(v.search, OrElse(v.minPrice, DefaultMinPrice), OrElse(v.maxPrice, DefaultMaxPrice),
      v.sort, v.page, PageSize)
  }

  /** The query the handler sees for these parameters, given the numbers it
      reads out of the two price texts. */
  function AsListQuery(p: FetchParams, minAmount: real, maxAmount: real): ListQuery {
    ListQuery(Some(p.page), Some(p.limit), Some(p.search), Some(minAmount), Some(maxAmount), Some(p.sort))
  }

  /** On first render the page asks for page 1 of eight rows with the price
      fallbacks 0 and 100000, and the handler answers it. */
  lemma InitialRequestsFirstPage(store: Store, minAmount: real, maxAmount: real)
    ensures Fetch(Initial) == FetchParams("", DefaultMinPrice, DefaultMaxPrice, "", 1, PageSize)
    ensures List(store, AsListQuery(Fetch(Initial), minAmount, maxAmount)).Some?
  {
  }

  /** Submitting the filter form goes back to page 1 and keeps the filters. */
  function Submit(v: ViewState): (r: ViewState)
    ensures r.page == 1
    ensures r.(page := v.page) == v
  {
    v.(page := 1)
  }

  /** A response arrived: its page count becomes the state's. */
  function Receive(v: ViewState, listing: Listing): (r: ViewState)
    ensures r.totalPages == listing.pages
    ensures r.(totalPages := v.totalPages) == v
  {
    v.(totalPages := listing.pages)
  }

  /** The Previous button's handler. */
  function PreviousPage(page: int): (r: int)
    ensures r >= 1
    ensures page >= 1 ==> r <= page
    ensures page > 1 ==> r == page - 1
  {
    if page > 1 then page - 1 else 1
  }

  /** The Next button's handler. */
  function NextPage(page: int, totalPages: int): (r: int)
    ensures 1 <= page <= totalPages ==> 1 <= r <= totalPages
    ensures page < totalPages ==> r == page + 1
    ensures page >= totalPages ==> r == totalPages
  {
    if page < totalPages then page + 1 else totalPages
  }

  predicate PreviousDisabled(page: int) {
    page == 1
  }

  predicate NextDisabled(page: int, totalPages: int) {
    page == totalPages
  }

  /** Within the page range, a button is disabled exactly when pressing it
      would leave the page as it is. */
  lemma DisabledIffNoMove(page: int, totalPages: int)
    requires 1 <= page <= totalPages
    ensures PreviousDisabled(page) <==> PreviousPage(page) == page
    ensures NextDisabled(page, totalPages) <==> NextPage(page, totalPages) == page
  {
  }

  /** Previous undoes Next, and Next undoes Previous, wherever the first
      press moved. */
  lemma PreviousNextInverse(page: int, totalPages: int)
    requires 1 <= page <= totalPages
    ensures page < totalPages ==> PreviousPage(NextPage(page, totalPages)) == page
    ensures page > 1 ==> NextPage(PreviousPage(page), totalPages) == page
  {
  }

  /** With no pages at all, Next moves to page 0, which the handler refuses;
      the buttons are hidden in that case because no product is shown. */
  lemma NextWithoutPages()
    ensures NextPage(1, 0) == 0
  {
  }

  datatype PageButton = PageButton(number: int, active: bool)

  /** `renderPagination`: one button per page, numbered from 1, the current
      page's button marked active. */
  method RenderPagination(page: int, totalPages: int) returns (buttons: seq<PageButton>)
    ensures |buttons| == (if totalPages > 0 then totalPages else 0)
    ensures forall i :: 0 <= i < |buttons| ==> buttons[i].number == i + 1
    ensures forall i :: 0 <= i < |buttons| ==> (buttons[i].active <==> buttons[i].number == page)
    ensures (exists i :: 0 <= i < |buttons| && buttons[i].active) <==> 1 <= page <= totalPages
  {
    buttons := [];
    var i := 1;
    while i <= totalPages
      invariant 1 <= i <= (if totalPages > 0 then totalPages else 0) + 1
      invariant |buttons| == i - 1
      invariant forall j :: 0 <= j < |buttons| ==> buttons[j] == PageButton(j + 1, page == j + 1)
    {
      buttons := buttons + [PageButton(i, page == i)];
      i := i + 1;
    }
    if 1 <= page <= totalPages {
      assert buttons[page - 1].active;
    }
  }

  /** The description shown on a product card, as the code units
      JavaScript holds: `length` and `substring` count UTF-16 code units, so
      the cut falls after 100 code units, which may split a surrogate pair. */
  function DescriptionText(description: Option<string>): (r: seq<CodeUnit>)
    ensures |r| <= DescriptionLimit + |Ellipsis|
    ensures description.None? || description.value == "" ==> r == Bmp(NoDescription)
    ensures description.Some? && 0 < |Utf16(description.value)| <= DescriptionLimit ==>
      r == Utf16(description.value)
    ensures description.Some? && |Utf16(description.value)| > DescriptionLimit ==>
      && |r| == DescriptionLimit + |Ellipsis|
      && r[..DescriptionLimit] == Utf16(description.value)[..DescriptionLimit]
      && r[DescriptionLimit..] == Bmp(Ellipsis)
  {
    match description
    case None => Bmp(NoDescription)
    case Some(d) =>
      var units := Utf16(d);
      if d == "" then Bmp(NoDescription)
      else if |units| > DescriptionLimit then units[..DescriptionLimit] + Bmp(Ellipsis)
      else units
  }

  /** A shown description never invents text: it is a prefix of the stored
      one's code units, possibly followed by the ellipsis. */
  lemma DescriptionIsPrefix(d: string)
    requires d != ""
    ensures exists n :: 0 <= n <= |Utf16(d)| && (DescriptionText(Some(d)) == Utf16(d)[..n] ||
                                                 DescriptionText(Some(d)) == Utf16(d)[..n] + Bmp(Ellipsis))
  {
    var units := Utf16(d);
    if |units| > DescriptionLimit {
      assert DescriptionText(Some(d)) == units[..DescriptionLimit] + Bmp(Ellipsis);
    } else {
      assert DescriptionText(Some(d)) == units[..|units|];
    }
  }

  /** For text without astral characters the cut falls after 100
      characters. */
  lemma BmpDescriptionCutsCharacters(d: BmpString)
    requires |d| > DescriptionLimit
    ensures DescriptionText(Some(d)) == Utf16(d[..DescriptionLimit] + Ellipsis)
  {
    var head := d[..DescriptionLimit];
    BmpUnits(d);
    BmpUnits(head);
    assert head + d[DescriptionLimit..] == d;
    Utf16Concat(head, d[DescriptionLimit..]);
    Utf16Concat(head, Ellipsis);
    BmpIsUtf16(Ellipsis);
  }

  const Grinning := '\U{1F600}'

  /** Fifty-one emoji are 102 code units, so the card shows fifty of them
      and the ellipsis. */
  lemma EmojiDescriptionIsCut()
    ensures
      var d := seq(51, _ => Grinning);
      && |Utf16(d)| == 102
      && DescriptionText(Some(d)) == Utf16(seq(50, _ => Grinning) + Ellipsis)
  {
    var d := seq(51, _ => Grinning);
    var fifty := seq(50, _ => Grinning);
    AstralDoubles(d);
    AstralDoubles(fifty);
    assert d == fifty + [Grinning];
    Utf16Concat(fifty, [Grinning]);
    Utf16Concat(fifty, Ellipsis);
    BmpIsUtf16(Ellipsis);
  }

  /** The image shown on a product card: the stored URL unless it is null or
      empty. */
  function ImageSource(imageUrl: Option<string>): (r: string)
    ensures r != ""
    ensures imageUrl.Some? && imageUrl.value != "" ==> r == imageUrl.value
    ensures imageUrl.None? || imageUrl.value == "" ==> r == PlaceholderImage
  {
    match imageUrl
    case Some(u) => OrElse(u, PlaceholderImage)
    case None => PlaceholderImage
  }

  // ----- The page against the handler -----

  /** Whatever prices are entered, a request the page sends is answered
      exactly when its page is at least 1 and the page's offset fits a PHP
      integer, and then with a listing of at most eight rows. */
  lemma FetchIsAnswered(store: Store, v: ViewState, minAmount: real, maxAmount: real)
    ensures List(store, AsListQuery(Fetch(v), minAmount, maxAmount)).Some? <==>
      v.page >= 1 && (v.page - 1) * PageSize <= PhpIntMax
    ensures List(store, AsListQuery(Fetch(v), minAmount, maxAmount)).Some? ==>
      |List(store, AsListQuery(Fetch(v), minAmount, maxAmount)).value.data| <= PageSize
  {
  }

  /** After a submit the page asks for page 1, which is always answered. */
  lemma SubmitFetchesFirstPage(store: Store, v: ViewState, minAmount: real, maxAmount: real)
    ensures Fetch(Submit(v)).page == 1
    ensures List(store, AsListQuery(Fetch(Submit(v)), minAmount, maxAmount)).Some?
  {
  }

  /** When a response shows products (the only case in which Previous and
      Next are drawn), both buttons keep the page within 1..pages. */
  lemma ShownPaginationStaysInRange(store: Store, v: ViewState, minAmount: real, maxAmount: real)
    requires PagingAccepted(v.page, PageSize)
    requires |List(store, AsListQuery(Fetch(v), minAmount, maxAmount)).value.data| > 0
    ensures
      var w := Receive(v, List(store, AsListQuery(Fetch(v), minAmount, maxAmount)).value);
      && 1 <= w.page <= w.totalPages
      && 1 <= PreviousPage(w.page) <= w.totalPages
      && 1 <= NextPage(w.page, w.totalPages) <= w.totalPages
  {
    QueryProperties.NonEmptyPageIffInRange(store, AsListQuery(Fetch(v), minAmount, maxAmount));
  }

  /** Searching for "0" filters nothing: the handler treats it like an
      empty search, so only the price range applies. */
  lemma SearchForZeroIsIgnored(store: Store, v: ViewState, minAmount: real, maxAmount: real, p: Product)
    requires v.search == "0"
    ensures
      var c := Resolve(AsListQuery(Fetch(v), minAmount, maxAmount)).criteria;
      Matches(p, c) <==> minAmount <= p.price <= maxAmount
  {
  }

  /** With the max-price field left empty the page sends 100000, so a
      product priced above that is never shown, although the handler's own
      default has no upper bound. */
  lemma EmptyMaxPriceCapsAt100000(v: ViewState, minAmount: real, p: Product)
    requires v.maxPrice == ""
    requires p.price > 100000.0
    ensures Fetch(v).maxPrice == DefaultMaxPrice
    ensures !Matches(p, Resolve(AsListQuery(Fetch(v), minAmount, 100000.0)).criteria)
  {
  }
}

=== FILE: products.dfy ===
/** The data model of the products table and of the handler's responses. */
module Products {
  import opened Options
  import opened PhpValues

  /** One row of the `products` table, without its key. Prices are exact
      decimals (`real`) rather than the database's floating-point reading. */
  datatype Product = Product(
    name: string,
    description: Option<string>,
    price: real,
    imageUrl: Option<string>)

  /** The table, keyed by the auto-assigned integer id. */
  type Store = map<int, Product>

  /** A row as `SELECT *` returns it: the id together with the columns. */
  datatype Row = Row(id: int, product: Product)

  /** A price as it arrives in a JSON body: a JSON number, or a JSON string
      together with the amount the database stores for it (reading a number
      out of the text is not modelled). */
  datatype PriceInput = Numeric(amount: real) | Textual(text: string, amount: real)

  /** A decoded JSON request body; `None` is an absent or null property. */
  datatype Body = Body(
    name: Option<string>,
    description: Option<string>,
    price: Option<PriceInput>,
    imageUrl: Option<string>)

  /** A body with no properties at all (also what a missing body reads as). */
  const EmptyBody := Body(None, None, None, None)

  /** One page of the list query, as the handler encodes it. */
  datatype Listing = Listing(data: seq<Row>, total: nat, page: int, limit: int, pages: nat)

  /** The JSON document a response carries. `ServerError` is the uncaught
      database or arithmetic error, whose text is not modelled. */
  datatype Payload = Message(text: string) | Record(row: Row) | Page(listing: Listing) | ServerError

  datatype Response = Response(status: int, payload: Payload)

  /** What a request does: the response and the table afterwards. */
  datatype Outcome = Outcome(response: Response, store: Store)

  const RequiredMessage := "Name and price are required"
  const CreatedMessage := "Product created successfully"
  const NotFoundMessage := "Product not found"
  const UpdatedMessage := "Product updated successfully"
  const DeletedMessage := "Product deleted successfully"
  const IdRequiredMessage := "Product ID is required"
  const MethodNotAllowedMessage := "Method not allowed"

  const NotFound := Response(404, Message(NotFoundMessage))
}

=== FILE: query.dfy ===
/** The list query: default parameters, the row filter shared by the data
    and count queries, the ordering, the LIMIT/OFFSET window, and the page
    count. */
module Query {
  import opened Options
  import opened PhpValues
  import opened Products

  /** The query-string parameters of a list request, already read as numbers
      where the handler converts them; `None` is a parameter that is not set. */
  datatype ListQuery = ListQuery(
    page: Option<int>,
    limit: Option<int>,
    search: Option<string>,
    minPrice: Option<real>,
    maxPrice: Option<real>,
    sort: Option<string>)

  /** The three orderings the handler can emit. */
  datatype SortKey = PriceAsc | PriceDesc | NewestFirst

  /** The WHERE clause's parameters; `maxPrice == None` is the default bound
      `PHP_FLOAT_MAX`, which no stored price exceeds. */
  datatype Criteria = Criteria(search: string, minPrice: real, maxPrice: Option<real>)

  /** The parameters after defaults. */
  datatype Filter = Filter(criteria: Criteria, sort: SortKey, page: int, limit: int)

  const DefaultPage := 1
  const DefaultLimit := 10

  function SortKeyOf(sort: string): SortKey {
    if sort == "price_asc" then PriceAsc
    else if sort == "price_desc" then PriceDesc
    else NewestFirst
  }

  /** The defaults the handler applies to parameters that are not set. */
  function Resolve(q: ListQuery): Filter {
    Filter(
      Criteria(Coalesce(q.search, ""), Coalesce(q.minPrice, 0.0), q.maxPrice),
      SortKeyOf(Coalesce(q.sort, "")),
      Coalesce(q.page, DefaultPage),
      Coalesce(q.limit, DefaultLimit))
  }

  // ----- The WHERE clause -----

  predicate OccursAt(text: string, needle: string, k: int) {
    0 <= k && k + |needle| <= |text| && text[k..k + |needle|] == needle
  }

  /** `text LIKE '%needle%'`, read as plain substring containment. */
  predicate Contains(text: string, needle: string) {
    exists k | 0 <= k <= |text| - |needle| :: OccursAt(text, needle, k)
  }

  /** Every text with the search text inside it contains it. */
  lemma ContainsInfix(pre: string, needle: string, post: string)
    ensures Contains(pre + needle + post, needle)
  {
    var text := pre + needle + post;
    assert text[|pre|..|pre| + |needle|] == needle;
    assert OccursAt(text, needle, |pre|);
  }

  /** The WHERE clause of both queries: the price lies in the inclusive
      range, and a search that is not `empty()` occurs in the name or in a
      non-null description. */
  predicate Matches(p: Product, c: Criteria) {
    && c.minPrice <= p.price
    && (c.maxPrice.Some? ==> p.price <= c.maxPrice.value)
    && (Empty(c.search)
        || Contains(p.name, c.search)
        || (p.description.Some? && Contains(p.description.value, c.search)))
  }

  function MatchingIds(store: Store, c: Criteria): set<int> {
    set k | k in store && Matches(store[k], c)
  }

  // ----- ORDER BY -----

  /** The strict order of ORDER BY. Equal prices, whose relative order SQL
      leaves open, are fixed here by ascending id. */
  predicate Precedes(store: Store, key: SortKey, a: int, b: int)
    requires a in store && b in store
  {
    match key
    case NewestFirst => a > b
    case PriceAsc =>
      store[a].price < store[b].price || (store[a].price == store[b].price && a < b)
    case PriceDesc =>
      store[a].price > store[b].price || (store[a].price == store[b].price && a < b)
  }

  lemma PrecedesIsStrictTotal(store: Store, key: SortKey, a: int, b: int, c: int)
    requires a in store && b in store && c in store
    ensures !Precedes(store, key, a, a)
    ensures a != b ==> Precedes(store, key, a, b) || Precedes(store, key, b, a)
    ensures Precedes(store, key, a, b) && Precedes(store, key, b, c) ==> Precedes(store, key, a, c)
  {
  }

  predicate IsFirst(store: Store, key: SortKey, m: int, ids: set<int>)
    requires ids <= store.Keys
  {
    m in ids && forall y :: y in ids && y != m ==> Precedes(store, key, m, y)
  }

  lemma HasElement(s: set<int>)
    requires |s| > 0
    ensures exists x :: x in s
  {
    if forall x :: x !in s {
      assert false;
    }
  }

  /** Every non-empty finite set of rows has a first row in each ordering. */
  lemma {:induction false} FirstExists(store: Store, key: SortKey, ids: set<int>)
    requires ids <= store.Keys
    requires |ids| > 0
    ensures exists m :: IsFirst(store, key, m, ids)
    decreases |ids|
  {
    HasElement(ids);
    var x :| x in ids;
    if ids == {x} {
      assert IsFirst(store, key, x, ids);
    } else {
      var rest := ids - {x};
      FirstExists(store, key, rest);
      var m :| IsFirst(store, key, m, rest);
      if Precedes(store, key, x, m) {
        forall y | y in ids && y != x
          ensures Precedes(store, key, x, y)
        {
          if y != m {
            PrecedesIsStrictTotal(store, key, x, m, y);
          }
        }
        assert IsFirst(store, key, x, ids);
      } else {
        PrecedesIsStrictTotal(store, key, x, m, x);
        assert IsFirst(store, key, m, ids);
      }
    }
  }

  /** Sequence `s` lists rows of the table in strictly increasing order. */
  predicate InOrder(store: Store, key: SortKey, s: seq<int>)
    requires forall i :: 0 <= i < |s| ==> s[i] in store
  {
    forall i, j :: 0 <= i < j < |s| ==> Precedes(store, key, s[i], s[j])
  }

  /** The ids of `ids` in ORDER BY order. */
  function Sort(store: Store, key: SortKey, ids: set<int>): (r: seq<int>)
    requires ids <= store.Keys
    ensures |r| == |ids|
    ensures forall k :: k in r <==> k in ids
    ensures forall i :: 0 <= i < |r| ==> r[i] in store
    ensures InOrder(store, key, r)
    decreases |ids|
  {
    if ids == {} then []
    else
      FirstExists(store, key, ids);
      FirstUnique(store, key, ids);
      var m :| IsFirst(store, key, m, ids);
      var rest := Sort(store, key, ids - {m});
      FirstThenRest(store, key, m, ids, rest);
      [m] + rest
  }

  /** The first row of a set is unique, so sorting is deterministic. */
  lemma FirstUnique(store: Store, key: SortKey, ids: set<int>)
    requires ids <= store.Keys
    ensures forall m, n :: IsFirst(store, key, m, ids) && IsFirst(store, key, n, ids) ==> m == n
  {
  }

  /** The first row followed by the remaining rows in order is in order. */
  lemma FirstThenRest(store: Store, key: SortKey, m: int, ids: set<int>, rest: seq<int>)
    requires ids <= store.Keys
    requires IsFirst(store, key, m, ids)
    requires forall k :: k in rest <==> k in ids - {m}
    requires forall i :: 0 <= i < |rest| ==> rest[i] in store
    requires InOrder(store, key, rest)
    ensures forall k :: k in [m] + rest <==> k in ids
    ensures InOrder(store, key, [m] + rest)
  {
  }

  /** The rows of `ids`, in that order, as stored. */
  function Rows(store: Store, ids: seq<int>): (r: seq<Row>)
    requires forall i :: 0 <= i < |ids| ==> ids[i] in store
  {
    seq(|ids|, i requires 0 <= i < |ids| => Row(ids[i], store[ids[i]]))
  }

  /** The rows of `rows` carry ids in strictly increasing ORDER BY order. */
  predicate RowsInOrder(store: Store, key: SortKey, rows: seq<Row>)
  {
    forall i, j :: 0 <= i < j < |rows| ==>
      rows[i].id in store && rows[j].id in store && Precedes(store, key, rows[i].id, rows[j].id)
  }

  /** Every matching row, in ORDER BY order: what the data query returns
      before LIMIT/OFFSET. */
  function Ranked(store: Store, c: Criteria, key: SortKey): (r: seq<Row>)
    ensures |r| == |MatchingIds(store, c)|
    ensures forall i :: 0 <= i < |r| ==>
      r[i].id in store && r[i].product == store[r[i].id] && Matches(r[i].product, c)
    ensures forall k :: k in MatchingIds(store, c) ==> exists i :: 0 <= i < |r| && r[i].id == k
    ensures RowsInOrder(store, key, r)
  {
    var ids := Sort(store, key, MatchingIds(store, c));
    var r := Rows(store, ids);
    forall i | 0 <= i < |r|
      ensures r[i].id == ids[i] && Matches(r[i].product, c)
    {
      assert ids[i] in ids;
    }
    r
  }

  /** Rows in a strict order never repeat an id. */
  lemma RowsInOrderDistinct(store: Store, key: SortKey, rows: seq<Row>)
    requires RowsInOrder(store, key, rows)
    ensures forall i, j :: 0 <= i < j < |rows| ==> rows[i].id != rows[j].id
  {
  }

  // ----- LIMIT / OFFSET and the page count -----

  /** `($page - 1) * $limit`, the number of rows before the page. */
  function Offset(page: int, limit: int): (r: nat)
    requires page >= 1 && limit >= 1
    ensures r < page * limit
  {
    MulNonNegative(page - 1, limit);
    (page - 1) * limit
  }

  lemma MulNonNegative(a: int, b: int)
    requires a >= 0 && b >= 0
    ensures a * b >= 0
  {
  }

  function Min(a: int, b: int): int {
    if a <= b then a else b
  }

  /** `LIMIT count OFFSET offset` applied to `s`. */
  function Window<T>(s: seq<T>, offset: nat, count: nat): (r: seq<T>)
    ensures |r| <= count
    ensures offset <= |s| ==> |r| == Min(count, |s| - offset)
    ensures offset >= |s| ==> r == []
    ensures forall i :: 0 <= i < |r| ==> offset + i < |s| && r[i] == s[offset + i]
  {
    if offset >= |s| then [] else s[offset..Min(offset + count, |s|)]
  }

  /** `ceil(total / limit)`: the least number of pages of `limit` rows that
      holds `total` rows. */
  function PageCount(total: nat, limit: int): (r: nat)
    requires limit >= 1
    ensures r * limit >= total
    ensures r == 0 || (r - 1) * limit < total
    decreases total
  {
    if total == 0 then 0
    else if total <= limit then 1
    else 1 + PageCount(total - limit, limit)
  }

  /** One page of the list query for well-formed paging parameters. */
  function ListPage(store: Store, f: Filter): (r: Listing)
    requires f.page >= 1 && f.limit >= 1
    ensures r.page == f.page && r.limit == f.limit
    ensures r.total == |MatchingIds(store, f.criteria)|
    ensures r.pages == PageCount(r.total, f.limit)
    ensures |r.data| <= f.limit
    ensures forall i :: 0 <= i < |r.data| ==>
      r.data[i].id in store && r.data[i].product == store[r.data[i].id] && Matches(r.data[i].product, f.criteria)
    ensures RowsInOrder(store, f.sort, r.data)
    ensures
      var ranked := Ranked(store, f.criteria, f.sort);
      var o := Offset(f.page, f.limit);
      && |r.data| == (if o < |ranked| then Min(f.limit, |ranked| - o) else 0)
      && forall i :: 0 <= i < |r.data| ==> o + i < |ranked| && r.data[i] == ranked[o + i]
  {
    var ranked := Ranked(store, f.criteria, f.sort);
    var data := Window(ranked, Offset(f.page, f.limit), f.limit);
    var total := |MatchingIds(store, f.criteria)|;
    assert forall i :: 0 <= i < |data| ==> data[i] == ranked[Offset(f.page, f.limit) + i];
    Listing(data, total, f.page, f.limit, PageCount(total, f.limit))
  }

  /** The paging parameters for which the data query is well formed and
      the page count has a non-zero divisor: a negative LIMIT or OFFSET is a
      SQL syntax error, and so is an offset `($page - 1) * $limit` above
      `PHP_INT_MAX`, which PHP turns into a float that is printed in
      exponent notation; a `limit` of 0 gives a valid `LIMIT 0` but then
      divides by zero in `ceil($total / $limit)`. */
  predicate PagingAccepted(page: int, limit: int) {
    page >= 1 && limit >= 1 && (page - 1) * limit <= PhpIntMax
  }

  /** The list request. `None` is the uncaught error the handler hits when
      the paging parameters are not accepted; a `limit` of 0 would also
      divide by zero in the page count. */
  function List(store: Store, q: ListQuery): (r: Option<Listing>)
    ensures r.Some? <==> PagingAccepted(Resolve(q).page, Resolve(q).limit)
    ensures r.Some? ==> r.value == ListPage(store, Resolve(q))
  {
    var f := Resolve(q);
    if !PagingAccepted(f.page, f.limit) then None else Some(ListPage(store, f))
  }
}

=== FILE: query_properties.dfy ===
/** Properties of the list query: the pages partition the matching rows,
    the count agrees with the data, and the rows come in the requested
    order. */
module QueryProperties {
  import opened Options
  import opened PhpValues
  import opened Products
  import opened Query

  /** Pages 1..n of `s`, `limit` rows per page, concatenated. */
  function Concat<T>(s: seq<T>, limit: int, n: nat): seq<T>
    requires limit >= 1
  {
    if n == 0 then [] else Concat(s, limit, n - 1) + Window(s, Offset(n, limit), limit)
  }

  /** The first n pages are exactly the first n * limit rows. */
  lemma {:induction false} ConcatIsPrefix<T>(s: seq<T>, limit: int, n: nat)
    requires limit >= 1
    ensures n * limit >= 0
    ensures Concat(s, limit, n) == s[..Min(n * limit, |s|)]
  {
    if n == 0 {
      assert n * limit == 0;
    } else {
      ConcatIsPrefix(s, limit, n - 1);
      ConcatStep(s, limit, n);
    }
  }

  /** Adding page n to the first n - 1 pages extends the prefix by one
      window. */
  lemma ConcatStep<T>(s: seq<T>, limit: int, n: nat)
    requires limit >= 1 && n >= 1
    requires (n - 1) * limit >= 0
    requires Concat(s, limit, n - 1) == s[..Min((n - 1) * limit, |s|)]
    ensures n * limit >= 0
    ensures Concat(s, limit, n) == s[..Min(n * limit, |s|)]
  {
    var start := Offset(n, limit);
    MulStep(n, limit);
    assert Concat(s, limit, n) == s[..Min(start, |s|)] + Window(s, start, limit);
    PrefixExtends(s, start, limit);
  }

  lemma MulStep(n: int, limit: int)
    requires n >= 1 && limit >= 1
    ensures n * limit == Offset(n, limit) + limit
  {
  }

  /** The prefix up to `start` followed by the window at `start` is the
      prefix up to `start + count`. */
  lemma PrefixExtends<T>(s: seq<T>, start: nat, count: nat)
    ensures s[..Min(start, |s|)] + Window(s, start, count) == s[..Min(start + count, |s|)]
  {
  }

  /** Once the page count is reached, the pages hold every row. */
  lemma AllPagesCoverAll<T>(s: seq<T>, limit: int)
    requires limit >= 1
    ensures Concat(s, limit, PageCount(|s|, limit)) == s
  {
    ConcatIsPrefix(s, limit, PageCount(|s|, limit));
  }

  /** The data of pages 1..n of a list request, each asked for in turn. */
  function Pages(store: Store, q: ListQuery, n: nat): seq<Row>
    requires Resolve(q).limit >= 1
    requires n == 0 || PagingAccepted(n, Resolve(q).limit)
  {
    if n == 0 then []
    else
      PagingShrinks(n, Resolve(q).limit);
      Pages(store, q, n - 1) + List(store, q.(page := Some(n))).value.data
  }

  /** An earlier page of an accepted page is accepted too. */
  lemma PagingShrinks(n: int, limit: int)
    requires PagingAccepted(n, limit)
    ensures n - 1 == 0 || PagingAccepted(n - 1, limit)
  {
    if n > 1 {
      MulMonotone(n - 2, n - 1, limit);
    }
  }

  /** The matching rows are rows of the table. */
  lemma MatchingWithinTable(store: Store, c: Criteria)
    ensures |MatchingIds(store, c)| <= |store|
  {
    var m := MatchingIds(store, c);
    assert store.Keys == m + (store.Keys - m);
  }

  lemma {:induction false} PagesAreWindows(store: Store, q: ListQuery, n: nat)
    requires Resolve(q).limit >= 1
    requires n == 0 || PagingAccepted(n, Resolve(q).limit)
    ensures
      var f := Resolve(q);
      Pages(store, q, n) == Concat(Ranked(store, f.criteria, f.sort), f.limit, n)
  {
    if n > 0 {
      PagingShrinks(n, Resolve(q).limit);
      PagesAreWindows(store, q, n - 1);
      var f := Resolve(q);
      assert Resolve(q.(page := Some(n))) == f.(page := n);
    }
  }

  /** Requesting pages 1..pages in turn yields exactly the ranked rows. A
      table of at most `PHP_INT_MAX` rows keeps every such offset an
      integer. */
  lemma PagesCoverRanked(store: Store, q: ListQuery)
    requires Resolve(q).limit >= 1
    requires |store| <= PhpIntMax
    ensures
      var f := Resolve(q);
      var pages := PageCount(|MatchingIds(store, f.criteria)|, f.limit);
      && (pages == 0 || PagingAccepted(pages, f.limit))
      && Pages(store, q, pages) == Ranked(store, f.criteria, f.sort)
  {
    var f := Resolve(q);
    MatchingWithinTable(store, f.criteria);
    var ranked := Ranked(store, f.criteria, f.sort);
    PagesAreWindows(store, q, PageCount(|MatchingIds(store, f.criteria)|, f.limit));
    AllPagesCoverAll(ranked, f.limit);
  }

  /** Requesting pages 1..pages in turn returns every matching row exactly
      once, each as stored; `total` is their number. */
  lemma PagesPartitionMatches(store: Store, q: ListQuery)
    requires Resolve(q).limit >= 1
    requires |store| <= PhpIntMax
    ensures
      var c := Resolve(q).criteria;
      var total := |MatchingIds(store, c)|;
      var pages := PageCount(total, Resolve(q).limit);
      && (pages == 0 || PagingAccepted(pages, Resolve(q).limit))
      && var all := Pages(store, q, pages);
         && |all| == total
         && (forall i :: 0 <= i < |all| ==>
               all[i].id in store && all[i].product == store[all[i].id] && Matches(all[i].product, c))
         && (forall k :: k in store && Matches(store[k], c) ==> exists i :: 0 <= i < |all| && all[i].id == k)
         && (forall i, j :: 0 <= i < j < |all| ==> all[i].id != all[j].id)
  {
    var f := Resolve(q);
    var ranked := Ranked(store, f.criteria, f.sort);
    PagesCoverRanked(store, q);
    RowsInOrderDistinct(store, f.sort, ranked);
    forall k | k in store && Matches(store[k], f.criteria)
      ensures exists i :: 0 <= i < |ranked| && ranked[i].id == k
    {
      assert k in MatchingIds(store, f.criteria);
    }
  }

  /** `price_asc` lists prices non-decreasing, `price_desc` non-increasing,
      and any other sort value (or none) lists ids newest first. */
  lemma ListOrder(store: Store, q: ListQuery)
    requires List(store, q).Some?
    ensures
      var data := List(store, q).value.data;
      var sort := Coalesce(q.sort, "");
      && (sort == "price_asc" ==>
            forall i, j :: 0 <= i < j < |data| ==> data[i].product.price <= data[j].product.price)
      && (sort == "price_desc" ==>
            forall i, j :: 0 <= i < j < |data| ==> data[i].product.price >= data[j].product.price)
      && (sort != "price_asc" && sort != "price_desc" ==>
            forall i, j :: 0 <= i < j < |data| ==> data[i].id > data[j].id)
  {
  }

  /** `total` depends only on the filter, not on which page is asked for
      or how long pages are. */
  lemma TotalIgnoresPaging(store: Store, q: ListQuery, page: int, limit: int)
    requires List(store, q).Some?
    requires PagingAccepted(page, limit)
    ensures List(store, q.(page := Some(page), limit := Some(limit))).value.total ==
            List(store, q).value.total
  {
  }

  /** A page holds rows exactly when it lies within 1..pages. */
  lemma NonEmptyPageIffInRange(store: Store, q: ListQuery)
    requires PagingAccepted(Resolve(q).page, Resolve(q).limit)
    ensures List(store, q).Some?
    ensures |List(store, q).value.data| > 0 <==> List(store, q).value.page <= List(store, q).value.pages
  {
    var f := Resolve(q);
    OffsetBelowTotalIff(|MatchingIds(store, f.criteria)|, f.page, f.limit);
  }

  /** Rows remain after the offset exactly when the page is at most the
      page count. */
  lemma OffsetBelowTotalIff(total: nat, page: int, limit: int)
    requires page >= 1 && limit >= 1
    ensures Offset(page, limit) < total <==> page <= PageCount(total, limit)
  {
    var pages := PageCount(total, limit);
    if page > pages {
      MulMonotone(pages, page - 1, limit);
    } else {
      MulMonotone(page - 1, pages - 1, limit);
    }
  }

  lemma MulMonotone(a: int, b: int, c: int)
    requires 0 <= a <= b && c >= 0
    ensures a * c <= b * c
  {
  }
}

=== FILE: query_scenarios.dfy ===
/** Concrete behaviour of the list query on particular requests. */
module QueryScenarios {
  import opened Options
  import opened PhpValues
  import opened Products
  import opened Query
  import opened QueryProperties

  const NoParameters := ListQuery(None, None, None, None, None, None)

  function Ids(rows: seq<Row>): set<int> {
    set row | row in rows :: row.id
  }

  /** With no parameters the handler lists the ten newest products whose
      price is not negative (the default minimum price is 0), newest first,
      and counts all such products. */
  lemma DefaultListingNewestTen(store: Store)
    ensures List(store, NoParameters).Some?
    ensures
      var r := List(store, NoParameters).value;
      && r.total == |set k | k in store && store[k].price >= 0.0|
      && |r.data| == Min(DefaultLimit, r.total)
      && (forall i, j :: 0 <= i < j < |r.data| ==> r.data[i].id > r.data[j].id)
      && (forall i, k :: 0 <= i < |r.data| && k in store && store[k].price >= 0.0 && k !in Ids(r.data) ==>
            k < r.data[i].id)
  {
    var f := Resolve(NoParameters);
    DefaultMatches(store);
    var ranked := Ranked(store, f.criteria, f.sort);
    var r := List(store, NoParameters).value;
    assert r.data == Window(ranked, 0, DefaultLimit);
    ListOrder(store, NoParameters);
    forall i, k | 0 <= i < |r.data| && k in store && store[k].price >= 0.0 && k !in Ids(r.data)
      ensures k < r.data[i].id
    {
      assert k in MatchingIds(store, f.criteria);
      var n :| 0 <= n < |ranked| && ranked[n].id == k;
      WindowHeadsPrecede(store, f.sort, ranked, DefaultLimit, n, i);
    }
  }

  /** The default criteria match exactly the rows of non-negative price. */
  lemma DefaultMatches(store: Store)
    ensures Resolve(NoParameters).criteria == Criteria("", 0.0, None)
    ensures MatchingIds(store, Resolve(NoParameters).criteria) == set k | k in store && store[k].price >= 0.0
  {
    var c := Criteria("", 0.0, None);
    assert forall p: Product :: Matches(p, c) <==> p.price >= 0.0;
  }

  /** A row left off the first page comes after every row on it. */
  lemma WindowHeadsPrecede(store: Store, key: SortKey, ranked: seq<Row>, count: nat, n: int, i: int)
    requires RowsInOrder(store, key, ranked)
    requires 0 <= n < |ranked| && ranked[n].id !in Ids(Window(ranked, 0, count))
    requires 0 <= i < |Window(ranked, 0, count)|
    ensures ranked[i].id in store && ranked[n].id in store
    ensures Precedes(store, key, ranked[i].id, ranked[n].id)
  {
  }

  /** A product stored with a negative price, which create accepts, is not
      part of any listing that uses the default minimum price. */
  lemma NegativePriceNeverListedByDefault(store: Store, q: ListQuery, id: int)
    requires q.minPrice.None?
    requires PagingAccepted(Resolve(q).page, Resolve(q).limit)
    requires id in store && store[id].price < 0.0
    ensures List(store, q).Some?
    ensures id !in Ids(List(store, q).value.data)
    ensures List(store, q).value.total == |MatchingIds(store, Resolve(q).criteria)|
    ensures id !in MatchingIds(store, Resolve(q).criteria)
  {
  }

  function Item(price: real): Product {
    Product("item", None, price, None)
  }

  /** Five products priced 3, 6, 8, 9 and 12; the request asks for prices
      5..10, cheapest first, two per page. */
  const PricedFive: Store := map[1 := Item(3.0), 2 := Item(6.0), 3 := Item(8.0), 4 := Item(9.0), 5 := Item(12.0)]
  const CheapestTwoIn5To10 := ListQuery(Some(1), Some(2), None, Some(5.0), Some(10.0), Some("price_asc"))

  const FiveToTen := Criteria("", 5.0, Some(10.0))

  lemma ScenarioMatches()
    ensures MatchingIds(PricedFive, FiveToTen) == {2, 3, 4}
  {
  }

  lemma ScenarioRanked()
    ensures
      var ranked := Ranked(PricedFive, FiveToTen, PriceAsc);
      |ranked| == 3 && ranked[0] == Row(2, Item(6.0)) && ranked[1] == Row(3, Item(8.0))
  {
    ScenarioMatches();
    RankedOfThree(PricedFive, FiveToTen, PriceAsc, 2, 3, 4);
  }

  /** When exactly three rows match, ranking puts them in their order. */
  lemma RankedOfThree(store: Store, c: Criteria, key: SortKey, a: int, b: int, x: int)
    requires MatchingIds(store, c) == {a, b, x}
    requires a in store && b in store && x in store
    requires Precedes(store, key, a, b) && Precedes(store, key, b, x)
    ensures |Ranked(store, c, key)| == 3
    ensures Ranked(store, c, key)[0] == Row(a, store[a])
    ensures Ranked(store, c, key)[1] == Row(b, store[b])
  {
    PrecedesIsStrictTotal(store, key, a, b, x);
    PrecedesIsStrictTotal(store, key, b, a, b);
    assert |{a, b, x}| == 3;
    FirstTwoOfThree(store, key, Ranked(store, c, key), a, b, x);
  }

  /** Three rows in a strict order, whose ids are known to be a, b, c in
      that order, start with a then b. */
  lemma FirstTwoOfThree(store: Store, key: SortKey, rows: seq<Row>, a: int, b: int, c: int)
    requires |rows| == 3
    requires RowsInOrder(store, key, rows)
    requires a in store && b in store && c in store
    requires Precedes(store, key, a, b) && Precedes(store, key, b, c)
    requires exists i :: 0 <= i < 3 && rows[i].id == a
    requires exists i :: 0 <= i < 3 && rows[i].id == b
    requires exists i :: 0 <= i < 3 && rows[i].id == c
    ensures rows[0].id == a && rows[1].id == b
  {
  }

  /** The first page holds the products priced 6 and 8; three match in all,
      on two pages. */
  lemma PriceRangeScenario()
    ensures List(PricedFive, CheapestTwoIn5To10).Some?
    ensures
      var r := List(PricedFive, CheapestTwoIn5To10).value;
      && r.total == 3 && r.pages == 2
      && r.data == [Row(2, Item(6.0)), Row(3, Item(8.0))]
  {
    var f := Resolve(CheapestTwoIn5To10);
    assert f == Filter(FiveToTen, PriceAsc, 1, 2);
    ScenarioMatches();
    ScenarioRanked();
    assert |{2, 3, 4}| == 3;
    var ranked := Ranked(PricedFive, FiveToTen, PriceAsc);
    var r := List(PricedFive, CheapestTwoIn5To10).value;
    assert r.data == Window(ranked, 0, 2);
  }

  /** `?page=3000000000&limit=4000000000`: the offset 11999999996000000000
      is above `PHP_INT_MAX`, so the request fails; an offset of exactly
      `PHP_INT_MAX` is still accepted. */
  lemma OverflowingOffsetFails(store: Store)
    ensures List(store, NoParameters.(page := Some(3000000000), limit := Some(4000000000))).None?
    ensures List(store, NoParameters.(page := Some(2), limit := Some(PhpIntMax))).Some?
  {
  }
}

=== FILE: router.dfy ===
/** The dispatch at the bottom of the request handler: the HTTP method and
    the `id` query parameter select the operation and the status code. */
module Router {
  import opened Options
  import opened PhpValues
  import opened Products
  import opened Handlers
  import opened Query

  /** The `id` query parameter: its text, which decides PHP truthiness, and
      the key the database compares against when it reads the text as a
      number (that reading is not modelled). */
  datatype IdParam = IdParam(text: string, key: int)

  /** A request: the method, the `id` parameter if set, the other query
      parameters, and the decoded JSON body. */
  datatype Request = Request(verb: string, id: Option<IdParam>, query: ListQuery, body: Body)

  /** `if ($id)` for the PUT and DELETE branches: set, and not "" or "0". */
  predicate HasId(req: Request) {
    req.id.Some? && Truthy(req.id.value.text)
  }

  const IdRequired := Response(400, Message(IdRequiredMessage))
  const MethodNotAllowed := Response(405, Message(MethodNotAllowedMessage))

  /** The list response: 200 with the listing, or the uncaught error. */
  function ListResponse(store: Store, q: ListQuery): (r: Response)
    ensures r.status == 200 <==> List(store, q).Some?
    ensures r.status == 200 ==> r.payload == Page(List(store, q).value)
    ensures r.status != 200 ==> r == Response(500, ServerError)
  {
    match List(store, q)
    case Some(listing) => Response(200, Page(listing))
    case None => Response(500, ServerError)
  }

  /** Handle one request against the table. `newId` is the key the database
      would assign to a row inserted by this request. */
  function Route(store: Store, req: Request, newId: int): (r: Outcome)
    requires newId !in store
    ensures req.verb == "GET" ==> r.store == store
    ensures req.verb == "GET" && req.id.Some? ==> r.response == Get(store, req.id.value.key)
    ensures req.verb == "GET" && req.id.None? ==> r.response == ListResponse(store, req.query)
    ensures req.verb == "POST" ==> r == Create(store, req.body, newId)
    ensures req.verb == "PUT" && HasId(req) ==> r == Update(store, req.id.value.key, req.body)
    ensures req.verb == "DELETE" && HasId(req) ==> r == Delete(store, req.id.value.key)
    ensures (req.verb == "PUT" || req.verb == "DELETE") && !HasId(req) ==>
      r == Outcome(IdRequired, store)
    ensures req.verb !in {"GET", "POST", "PUT", "DELETE"} ==> r == Outcome(MethodNotAllowed, store)
  {
    if req.verb == "GET" then
      if req.id.Some? then Outcome(Get(store, req.id.value.key), store)
      else Outcome(ListResponse(store, req.query), store)
    else if req.verb == "POST" then
      Create(store, req.body, newId)
    else if req.verb == "PUT" then
      if HasId(req) then Update(store, req.id.value.key, req.body) else Outcome(IdRequired, store)
    else if req.verb == "DELETE" then
      if HasId(req) then Delete(store, req.id.value.key) else Outcome(IdRequired, store)
    else
      Outcome(MethodNotAllowed, store)
  }

  // ----- Properties of the dispatch -----

  /** Every answer carries one of the handler's status codes, and each code
      comes only from the branches that can produce it. */
  lemma RouteStatuses(store: Store, req: Request, newId: int)
    requires newId !in store
    ensures Route(store, req, newId).response.status in {200, 201, 400, 404, 405, 500}
    ensures Route(store, req, newId).response.status == 201 <==>
      req.verb == "POST" && NameGiven(req.body.name) && PriceGiven(req.body.price)
    ensures Route(store, req, newId).response.status == 405 <==>
      req.verb !in {"GET", "POST", "PUT", "DELETE"}
    ensures Route(store, req, newId).response.status == 500 <==>
      req.verb == "GET" && req.id.None? && List(store, req.query).None?
    ensures Route(store, req, newId).response.status == 404 ==>
      req.id.Some? && req.id.value.key !in store
  {
  }

  /** Only a successful POST, PUT or DELETE changes the table; every other
      request leaves it as it was. */
  lemma OnlyWritesChangeTheTable(store: Store, req: Request, newId: int)
    requires newId !in store
    requires Route(store, req, newId).store != store
    ensures req.verb in {"POST", "PUT", "DELETE"}
    ensures Route(store, req, newId).response.status in {200, 201}
  {
  }

  /** An id of "0" counts as missing for PUT and DELETE, yet GET looks it
      up, because GET only asks whether the parameter is set. */
  lemma ZeroIdQuirk(store: Store, key: int, q: ListQuery, body: Body, newId: int)
    requires newId !in store
    ensures Route(store, Request("PUT", Some(IdParam("0", key)), q, body), newId) == Outcome(IdRequired, store)
    ensures Route(store, Request("DELETE", Some(IdParam("0", key)), q, body), newId) == Outcome(IdRequired, store)
    ensures Route(store, Request("GET", Some(IdParam("0", key)), q, body), newId).response == Get(store, key)
  {
  }

  /** Method names are compared exactly: a lower-case method is refused. */
  lemma MethodIsCaseSensitive(store: Store, req: Request, newId: int)
    requires newId !in store
    requires req.verb == "get"
    ensures Route(store, req, newId) == Outcome(MethodNotAllowed, store)
  {
  }

  /** DELETE then GET of the same id answers 404 "Product not found". */
  lemma RoutedGetAfterDelete(store: Store, id: IdParam, q: ListQuery, body: Body, newId: int, newId2: int)
    requires newId !in store
    requires Truthy(id.text)
    requires newId2 !in Route(store, Request("DELETE", Some(id), q, body), newId).store
    ensures
      var after := Route(store, Request("DELETE", Some(id), q, body), newId).store;
      Route(after, Request("GET", Some(id), q, body), newId2).response == NotFound
  {
  }

  /** A list request whose offset overflows a PHP integer is answered with
      the server error and leaves the table alone. */
  lemma OverflowingListIsServerError(store: Store, q: ListQuery, body: Body, newId: int)
    requires newId !in store
    requires Resolve(q).page >= 1 && Resolve(q).limit >= 1
    requires (Resolve(q).page - 1) * Resolve(q).limit > PhpIntMax
    ensures Route(store, Request("GET", None, q, body), newId) == Outcome(Response(500, ServerError), store)
  {
  }
}
